=== FILE: README.md ===
# ltick-validation: the range and not-empty rules

A Dafny model of the two rules of the `validation` package that make real
decisions:

- `Range(min, max)` builds a `RangeRule` whose `Validate` lets absent or
  empty values through, sends every other value through a type switch that
  turns numbers into a float, and compares that float with both bounds
  using a tolerance of `1e-7`; `Error` replaces the rule's message.
- `NotEmpty` is a shared `notEmptyRule` whose `Validate` fails with its
  configured message when a value is nil after indirection or empty;
  `Error` returns a new rule with another message.

Go's `interface{}` and reflection are replaced by an explicit input type
(`Values.Input`): a chain of non-nil references (`Ref`) that ends in a nil
reference (`Nil`) or a concrete value (`Value`). A concrete value has a
dynamic kind (the kinds the type switch names, plus `Other`), a numeric
content as a `real`, and an `isEmpty` flag. The package's `Indirect`
helper is not part of this model; `Values.Indirect` follows the chain to
its end as that helper's callers rely on. Its `IsEmpty` helper is not part
of this model either, and emptiness stays a free field of the concrete
value, so no assumption is made about which values (zero numbers, say)
count as empty. Go's `float64` is `real`, and `math.Min`, `math.Max` and
`math.Abs` are written over `real` in module `GoMath`.

Outcomes are constructors (`Outcomes.Outcome`) carrying what the Go error
text is formatted from: `Ok`, `Smaller(min, value)`, `Bigger(max, value)`,
`InvalidType(value)`, `Panic(dynamic, asserted)` for a failed type
assertion, and `Err(message)` for the not-empty rule. Messages of the range
rule are constructors too (`NoMoreThan`, `NoLessThan`, `Between`,
`MustBeEmpty`, `Custom`).

Behaviours of the code that a reader could easily get wrong, all
modelled as written:

- A bound of 0 is compared like any other bound. The doc comment above
  `Range` (range.go:14-17), written for a length rule, says "If max is 0,
  it means there is no upper bound", but the comparison at range.go:75-78
  never treats 0 specially: `Range(0, 10)` rejects `-1` as smaller than 0,
  and `Range(5, 0)` rejects every present, non-empty convertible value,
  those below 5 − 1e-7 as smaller than 5 and all others as bigger than 0.
- The default message is "the value must be empty" not only for two zero
  bounds but whenever a bound is negative as well (range.go:19-26); the
  other three messages need both bounds non-negative and at least one
  positive.
- Only `int`, `uint`, `float32` and `float64` values convert. The
  `int8`..`int64` and `uint8`..`uint64` cases assert the value to `int` or
  `uint` (range.go:50-67), which fails for those dynamic types, so
  `Validate` panics; this is the `Panic` outcome.
- The not-empty rule's `Error` builds a new rule (not_zero.go:29-31), but
  the range rule's `Error` assigns the field on its receiver and returns
  the same pointer (range.go:85-86); the model returns the updated record
  and says so at the definition.

## Model

| member | source | states |
|---|---|---|
| `Values.Indirect` | range.go:42 | the input is exactly the result re-wrapped in as many references as it was deep: absent means a nil at the end of the chain, present means that concrete value at the end |
| `Values.WrappedIndirect` | not_zero.go:20 | any number of references in front of a value leave the result of indirection unchanged |
| `Values.NilAtAnyDepthIsAbsent` | not_zero.go:20-21 | a nil reference behind any number of references is absent after indirection |
| `GoMath.Min` | range.go:75 | the result is no larger than either argument and is one of them: the smaller of a and b |
| `GoMath.Max` | range.go:77 | the result is no smaller than either argument and is one of them: the larger of a and b |
| `GoMath.Abs` | range.go:75-77 | the result is non-negative and equals x or −x: the absolute value of x |
| `RangeRules.ToFloat64` | range.go:46-74 | exactly the `int`, `uint`, `float32` and `float64` kinds convert, to their own value; a sized signed kind panics asserting `int`, a sized unsigned kind panics asserting `uint`; only the non-numeric kind is "not numeric" |
| `RangeRules.BelowMin` | range.go:75 | the Go test "f is the minimum of f and min and differs from min by more than the tolerance" holds exactly when f < min − 1e-7 |
| `RangeRules.AboveMax` | range.go:77 | the Go test "f is the maximum of f and max and differs from max by more than the tolerance" holds exactly when f > max + 1e-7 |
| `RangeRules.RangeRule.CheckBounds` | range.go:75-80 | a converted value passes exactly when min − 1e-7 ≤ f ≤ max + 1e-7; below that it is `Smaller(min, value)`, otherwise above it is `Bigger(max, value)` |
| `RangeRules.RangeRule.Validate` | range.go:41-81 | absent or empty input passes for every bound pair; a present non-numeric value is `InvalidType` with no bound comparison; sized integer kinds panic; a converted value passes iff it is within the widened bounds, is `Smaller` when below the lower one (checked first) and `Bigger` when above the upper one; no other outcome occurs |
| `RangeRules.RangeRule.Error` | range.go:83-87 | the message becomes the given text and both bounds are kept |
| `RangeRules.Range` | range.go:18-32 | bounds stored as given; `(0, >0)` gives `NoMoreThan(max)`, `(>0, 0)` gives `NoLessThan(min)`, `(>0, >0)` gives `Between(min, max)`, and the message is `MustBeEmpty` exactly when a bound is negative or both are zero |
| `RangeRules.ValidateIgnoresMessage` | range.go:41-81 | two rules with the same bounds give the same outcome on every input, whatever their messages |
| `RangeRules.ErrorKeepsValidation` | range.go:84-87 | a rule whose message was replaced accepts and reports exactly as before |
| `RangeRules.NilAtAnyDepthPasses` | range.go:42-45 | a nil reference behind any number of references passes every range rule |
| `RangeRules.LowerBoundFirst` | range.go:75-78 | a value both below min and above max (so min > max) is reported as smaller than min |
| `RangeRules.InvertedBoundsRejectNumbers` | range.go:75-79 | when max + 2·1e-7 < min, every present, non-empty convertible value is rejected as smaller or bigger |
| `RangeRules.ZeroBoundIsLiteral` | range.go:75-78 | with max = 0 a value above the tolerance (and not below min) is `Bigger(0, value)`; with min = 0 a value below minus the tolerance is `Smaller(0, value)` |
| `RangeRules.NoLessThanRejectsNumbers` | range.go:22-78 | a rule built as `Range(min, 0)` with min > 2·1e-7, whose message reads "no less than min", accepts no present, non-empty convertible value: below min − 1e-7 it is `Smaller(min, value)`, otherwise `Bigger(0, value)` |
| `RangeRules.Examples` | range.go:41-81 | `Range(0,10)` passes 5, rejects 11 as bigger and −1 as smaller; `Range(1,10)` passes 1 − 1e-8 and rejects 1 − 1e-6; a non-numeric value is an invalid type; an `int8` and a referenced `uint64` panic |
| `NotEmptyRules.NotEmptyRule.Validate` | not_zero.go:19-25 | the outcome is either `Ok` or `Err` carrying exactly the rule's message, and it is the error exactly when the input is nil after indirection or empty |
| `NotEmptyRules.NotEmptyRule.Error` | not_zero.go:28-32 | the returned rule carries the given message |
| `NotEmptyRules.NilAtAnyDepthFails` | not_zero.go:20-22 | a nil reference behind any number of references fails with the rule's message |
| `NotEmptyRules.DependsOnlyOnPresenceFacts` | not_zero.go:19-25 | two inputs that agree on being absent and on being empty get the same outcome, so repeated calls agree |
| `NotEmptyRules.ErrorLeavesDefaultUntouched` | not_zero.go:12-32 | the shared default keeps "is not empty" after a customised copy is made, and the copy fails on the same inputs with the new message |
| `Presence.ReferencesAreTransparent` | range.go:42 | wrapping an input in any number of references changes the outcome of neither the range rule (indirection at range.go:42) nor the not-empty rule (the same call at not_zero.go:20) |
| `Presence.RangeDefersPresence` | range.go:42-45 | every input the not-empty rule rejects passes every range rule; every input it accepts is present, and the range rule judges it by its concrete value alone |

## Left out

- The package's `Indirect` and `IsEmpty` helpers are not part of this model: indirection is the reference chain described above and emptiness is a field of the concrete value.
- IEEE-754 behaviour: NaN, infinities, rounding, and the precision lost converting large `int` or `uint` values to `float64` (range.go:49 and range.go:59, the only integer conversions that are reached); `math.Min`/`math.Max` are read as plain minimum and maximum over `real`.
- Rendering of messages and errors with `fmt` (`%v`, `%f`): they are constructors carrying the bound and the value.
- The unused `rune` field of `RangeRule`, and the doc comment above `Range`, which describes a length rule the code does not implement.
- Pointer aliasing of `RangeRule.Error`: the Go method mutates the rule every holder shares; the model returns the updated rule instead.
- The doc comment above `NotEmpty` (not_zero.go:9-11) says only interface, pointer, slice and map values are checked and all other types are valid; the code fails every value `IsEmpty` reports as empty (not_zero.go:21). Since emptiness is a free field here, neither reading is stated.

=== FILE: gomath.dfy ===
/**
 The three functions of Go's `math` package the range rule uses, over
 `real`. NaN and infinities have no counterpart here.
 */
module GoMath {

  function Min(a: real, b: real): (r: real)
    ensures r <= a && r <= b
    ensures r == a || r == b
  {
    if a <= b then a else b
  }

  function Max(a: real, b: real): (r: real)
    ensures a <= r && b <= r
    ensures r == a || r == b
  {
    if a <= b then b else a
  }

  function Abs(x: real): (r: real)
    ensures 0.0 <= r
    ensures r == x || r == -x
  {
    if x < 0.0 then -x else x
  }
}

=== FILE: not_zero.dfy ===
/**
 The not-empty rule: a value fails when it is nil after indirection or
 empty, and the failure carries the rule's configured message verbatim.
 */
module NotEmptyRules {
  import opened Values
  import opened Outcomes

  datatype NotEmptyRule = NotEmptyRule(message: string)
  {
    /** Fails with exactly the configured message on absent or empty values. */
    function Validate(x: Input): (o: Outcome)
      ensures o == Ok || o == Err(message)
      ensures o == Err(message) <==> Indirect(x).Absent? || Indirect(x).v.isEmpty
    {
      var n := Indirect(x);
      if n.Absent? || n.v.isEmpty then Err(message) else Ok
    }

    /**
     Returns a new rule carrying `text`; the receiver keeps its own message,
     so customising the shared default never affects other users of it.
     */
    function Error(text: string): (r: NotEmptyRule)
      ensures r.message == text
    {
      NotEmptyRule(text)
    }
  }

  /** The shared default instance. */
  const NotEmpty: NotEmptyRule := NotEmptyRule("is not empty")

  /** A nil reference behind any number of references fails. */
  lemma {:induction false} NilAtAnyDepthFails(rule: NotEmptyRule, n: nat)
    ensures rule.Validate(Wrapped(n, Nil)) == Err(rule.message)
  {
    NilAtAnyDepthIsAbsent(n);
  }

  /**
   The outcome is a function of the message and of the two facts
   indirection yields (absent, empty): inputs that agree on those facts,
   and in particular repeated calls on one input, give the same outcome.
   */
  lemma DependsOnlyOnPresenceFacts(rule: NotEmptyRule, x: Input, y: Input)
    requires Indirect(x).Absent? <==> Indirect(y).Absent?
    requires Indirect(x).Present? && Indirect(y).Present? ==>
      Indirect(x).v.isEmpty == Indirect(y).v.isEmpty
    ensures rule.Validate(x) == rule.Validate(y)
  {
  }

  /**
   Customising the default yields a rule that fails on the same inputs
   with the new message, while the default keeps "is not empty".
   */
  lemma ErrorLeavesDefaultUntouched(text: string, x: Input)
    ensures NotEmpty.message == "is not empty"
    ensures NotEmpty.Error(text).message == text
    ensures NotEmpty.Validate(x) == Err("is not empty") <==> NotEmpty.Error(text).Validate(x) == Err(text)
  {
  }
}

=== FILE: outcomes.dfy ===
/**
 What a rule's `Validate` returns. Go returns an `error` (nil on success) and
 may panic; here each distinct result is a constructor carrying the data the
 Go error text is formatted from, instead of the rendered text.
 */
module Outcomes {
  import opened Values

  datatype Outcome =
    | Ok                                        // Validate returned nil
    | Smaller(min: real, value: Concrete)       // "smaller than <min>: <value>"
    | Bigger(max: real, value: Concrete)        // "bigger than <max>: <value>"
    | InvalidType(value: Concrete)              // "invalid value type: <value>"
    | Panic(dynamic: Kind, asserted: Kind)      // a failed type assertion
    | Err(message: string)                      // errors.New(<rule message>)
}

=== FILE: presence.dfy ===
/**
 How the two rules divide the work: the range rule lets every absent or
 empty value through and leaves presence to the not-empty rule.
 */
module Presence {
  import opened Values
  import opened Outcomes
  import opened RangeRules
  import opened NotEmptyRules

  /**
   Both rules see their input only through indirection, so references in
   front of a value change neither rule's outcome.
   */
  lemma {:induction false} ReferencesAreTransparent(range: RangeRule, presence: NotEmptyRule, n: nat, x: Input)
    ensures range.Validate(Wrapped(n, x)) == range.Validate(x)
    ensures presence.Validate(Wrapped(n, x)) == presence.Validate(x)
  {
    WrappedIndirect(n, x);
  }

  /**
   Whatever the not-empty rule rejects, every range rule accepts; whatever
   it accepts, a range rule judges by the concrete value alone.
   */
  lemma RangeDefersPresence(range: RangeRule, presence: NotEmptyRule, x: Input)
    ensures presence.Validate(x).Err? ==> range.Validate(x) == Ok
    ensures presence.Validate(x).Ok? ==>
      Indirect(x).Present? && range.Validate(x) == range.Validate(Value(Indirect(x).v))
  {
  }
}

=== FILE: range.dfy ===
/**
 The range rule: a present numeric value must lie within `[min, max]`,
 each bound widened by a fixed tolerance.

 Floats are `real` here; the comparisons are written with Go's
 `math.Min`, `math.Max` and `math.Abs` exactly as the rule writes them,
 and each comparison's meaning is stated on the helper that makes it.
 */
module RangeRules {
  import opened Values
  import opened Outcomes
  import GoMath

  /** The tolerance both bound comparisons use. */
  const Accuracy: real := 0.0000001

  /** The rule's message: a default picked by `Range`, or one set by `Error`. */
  datatype Message =
    | NoMoreThan(max: real)               // "the value must be no more than <max>"
    | NoLessThan(min: real)               // "the value must be no less than <min>"
    | Between(min: real, max: real)       // "the value must be between <min> and <max>"
    | MustBeEmpty                         // "the value must be empty"
    | Custom(text: string)

  /** The result of the type switch that turns a concrete value into a float. */
  datatype Conversion =
    | Converted(f: real)
    | AssertionPanic(dynamic: Kind, asserted: Kind)
    | NotNumeric

  /**
   The type switch. Only `int`, `uint`, `float32` and `float64` convert:
   every sized integer case asserts the value to plain `int` or `uint`,
   which fails for a value of a different dynamic type and panics.
   */
  function ToFloat64(v: Concrete): (c: Conversion)
    ensures c.Converted? <==> v.kind in {Int, Uint, Float32, Float64}
    ensures c.Converted? ==> c.f == v.num
    ensures v.kind.IsSizedSigned() ==> c == AssertionPanic(v.kind, Int)
    ensures v.kind.IsSizedUnsigned() ==> c == AssertionPanic(v.kind, Uint)
    ensures c.NotNumeric? <==> !v.kind.IsNumeric()
  {
    match v.kind
    case Int => Converted(v.num)
    case Int8 => AssertionPanic(Int8, Int)
    case Int16 => AssertionPanic(Int16, Int)
    case Int32 => AssertionPanic(Int32, Int)
    case Int64 => AssertionPanic(Int64, Int)
    case Uint => Converted(v.num)
    case Uint8 => AssertionPanic(Uint8, Uint)
    case Uint16 => AssertionPanic(Uint16, Uint)
    case Uint32 => AssertionPanic(Uint32, Uint)
    case Uint64 => AssertionPanic(Uint64, Uint)
    case Float32 => Converted(v.num)
    case Float64 => Converted(v.num)
    case Other => NotNumeric
  }

  /** The lower-bound test: `f` is the smaller one and not within tolerance. */
  function BelowMin(f: real, min: real): (b: bool)
    ensures b <==> f < min - Accuracy
  {
    GoMath.Min(f, min) == f && GoMath.Abs(f - min) > Accuracy
  }

  /** The upper-bound test: `f` is the larger one and not within tolerance. */
  function AboveMax(f: real, max: real): (b: bool)
    ensures b <==> f > max + Accuracy
  {
    GoMath.Max(f, max) == f && GoMath.Abs(f - max) > Accuracy
  }

  /**
   The rule's configuration. The Go struct also has an unused `rune` field,
   which is left out.
   */
  datatype RangeRule = RangeRule(min: real, max: real, message: Message)
  {
    /**
     The bound comparisons for a value that converted to `f`: lower bound
     first, then upper bound. A bound of 0 is an ordinary bound here.
     */
    function CheckBounds(f: real, v: Concrete): (o: Outcome)
      ensures o.Ok? <==> min - Accuracy <= f <= max + Accuracy
      ensures f < min - Accuracy ==> o == Smaller(min, v)
      ensures min - Accuracy <= f && f > max + Accuracy ==> o == Bigger(max, v)
    {
      if BelowMin(f, min) then Smaller(min, v)
      else if AboveMax(f, max) then Bigger(max, v)
      else Ok
    }

    /**
     Validates `x`: absent or empty values pass; other values are converted
     by the type switch and compared against the bounds. The configured
     message plays no part.
     */
    function Validate(x: Input): (o: Outcome)
      ensures Indirect(x).Absent? ==> o == Ok
      ensures Indirect(x).Present? && Indirect(x).v.isEmpty ==> o == Ok
      ensures var n := Indirect(x);
        n.Present? && !n.v.isEmpty && !n.v.kind.IsNumeric() ==> o == InvalidType(n.v)
      ensures var n := Indirect(x);
        n.Present? && !n.v.isEmpty && n.v.kind.IsSizedSigned() ==> o == Panic(n.v.kind, Int)
      ensures var n := Indirect(x);
        n.Present? && !n.v.isEmpty && n.v.kind.IsSizedUnsigned() ==> o == Panic(n.v.kind, Uint)
      ensures var n := Indirect(x);
        n.Present? && !n.v.isEmpty && n.v.kind in {Int, Uint, Float32, Float64} ==>
          && (o.Ok? <==> min - Accuracy <= n.v.num <= max + Accuracy)
          && (n.v.num < min - Accuracy ==> o == Smaller(min, n.v))
          && (min - Accuracy <= n.v.num && n.v.num > max + Accuracy ==> o == Bigger(max, n.v))
      ensures o.Ok? || o.Smaller? || o.Bigger? || o.InvalidType? || o.Panic?
    {
      match Indirect(x)
      case Absent => Ok
      case Present(v) =>
        if v.isEmpty then Ok
        else
          match ToFloat64(v)
          case NotNumeric => InvalidType(v)
          case AssertionPanic(dynamic, asserted) => Panic(dynamic, asserted)
          case Converted(f) => CheckBounds(f, v)
    }

    /**
     Replaces the message and keeps the bounds. The Go method assigns the
     field on its receiver and returns that same pointer, so every holder
     of the rule sees the new message; here the updated rule is returned.
     */
    function Error(text: string): (r: RangeRule)
      ensures r.min == min && r.max == max
      ensures r.message == Custom(text)
    {
      this.(message := Custom(text))
    }
  }

  /**
   Builds a rule from its bounds, storing them unchanged, with a default
   message chosen by which bounds are positive; when a bound is negative or
   both are zero the message is `MustBeEmpty`.
   */
  function Range(min: real, max: real): (r: RangeRule)
    ensures r.min == min && r.max == max
    ensures min == 0.0 && max > 0.0 ==> r.message == NoMoreThan(max)
    ensures min > 0.0 && max == 0.0 ==> r.message == NoLessThan(min)
    ensures min > 0.0 && max > 0.0 ==> r.message == Between(min, max)
    ensures r.message == MustBeEmpty <==> min < 0.0 || max < 0.0 || (min == 0.0 && max == 0.0)
  {
    var message :=
      if min == 0.0 && max > 0.0 then NoMoreThan(max)
      else if min > 0.0 && max == 0.0 then NoLessThan(min)
      else if min > 0.0 && max > 0.0 then Between(min, max)
      else MustBeEmpty;
    RangeRule(min, max, message)
  }

  /** The outcome of validation depends on the bounds and the input only. */
  lemma ValidateIgnoresMessage(rule: RangeRule, other: RangeRule, x: Input)
    requires rule.min == other.min && rule.max == other.max
    ensures rule.Validate(x) == other.Validate(x)
  {
  }

  /** Setting a message never changes what the rule accepts or reports. */
  lemma ErrorKeepsValidation(rule: RangeRule, text: string, x: Input)
    ensures rule.Error(text).Validate(x) == rule.Validate(x)
  {
  }

  /** A nil reference behind any number of references passes. */
  lemma {:induction false} NilAtAnyDepthPasses(rule: RangeRule, n: nat)
    ensures rule.Validate(Wrapped(n, Nil)) == Ok
  {
    NilAtAnyDepthIsAbsent(n);
  }

  /**
   The lower bound is tested first: a value below `min` is reported as
   smaller even when it is also above `max`, which happens when `min > max`.
   */
  lemma LowerBoundFirst(rule: RangeRule, v: Concrete)
    requires !v.isEmpty && v.kind in {Int, Uint, Float32, Float64}
    requires v.num < rule.min - Accuracy && v.num > rule.max + Accuracy
    ensures rule.Validate(Value(v)) == Smaller(rule.min, v)
  {
  }

  /** With bounds further apart the wrong way than the tolerance, no non-empty number passes. */
  lemma InvertedBoundsRejectNumbers(rule: RangeRule, v: Concrete)
    requires rule.max + 2.0 * Accuracy < rule.min
    requires !v.isEmpty && v.kind in {Int, Uint, Float32, Float64}
    ensures rule.Validate(Value(v)).Smaller? || rule.Validate(Value(v)).Bigger?
  {
  }

  /**
   A bound of 0 is compared as a bound, not read as "no bound": with
   `max == 0` every value above the tolerance and not below `min` is too
   big, and with `min == 0` every value below minus the tolerance is too
   small.
   */
  lemma ZeroBoundIsLiteral(bound: real, v: Concrete)
    requires !v.isEmpty && v.kind in {Int, Uint, Float32, Float64}
    ensures bound - Accuracy <= v.num && v.num > Accuracy ==>
      Range(bound, 0.0).Validate(Value(v)) == Bigger(0.0, v)
    ensures v.num < -Accuracy ==> Range(0.0, bound).Validate(Value(v)) == Smaller(0.0, v)
  {
  }

  /**
   The message table reads `Range(min, 0)` as "no less than min", but the
   comparison takes 0 as the upper bound, so once `min` exceeds twice the
   tolerance such a rule accepts no non-empty number at all.
   */
  lemma NoLessThanRejectsNumbers(min: real, v: Concrete)
    requires min > 2.0 * Accuracy
    requires !v.isEmpty && v.kind in {Int, Uint, Float32, Float64}
    ensures Range(min, 0.0).message == NoLessThan(min)
    ensures v.num < min - Accuracy ==> Range(min, 0.0).Validate(Value(v)) == Smaller(min, v)
    ensures min - Accuracy <= v.num ==> Range(min, 0.0).Validate(Value(v)) == Bigger(0.0, v)
  {
  }

  /** Worked cases: the tolerance, a zero lower bound, a wrong type, a sized integer. */
  lemma Examples()
    ensures Range(0.0, 10.0).Validate(Value(Concrete(Int, 5.0, false))) == Ok
    ensures Range(0.0, 10.0).Validate(Value(Concrete(Int, 11.0, false)))
      == Bigger(10.0, Concrete(Int, 11.0, false))
    ensures Range(0.0, 10.0).Validate(Value(Concrete(Int, -1.0, false)))
      == Smaller(0.0, Concrete(Int, -1.0, false))
    ensures Range(1.0, 10.0).Validate(Value(Concrete(Float64, 1.0 - 0.00000001, false))) == Ok
    ensures Range(1.0, 10.0).Validate(Value(Concrete(Float64, 1.0 - 0.000001, false)))
      == Smaller(1.0, Concrete(Float64, 1.0 - 0.000001, false))
    ensures Range(1.0, 10.0).Validate(Value(Concrete(Other, 0.0, false)))
      == InvalidType(Concrete(Other, 0.0, false))
    ensures Range(1.0, 10.0).Validate(Value(Concrete(Int8, 5.0, false))) == Panic(Int8, Int)
    ensures Range(1.0, 10.0).Validate(Ref(Value(Concrete(Uint64, 5.0, false)))) == Panic(Uint64, Uint)
  {
  }
}

=== FILE: values.dfy ===
/**
 The values a validation rule is handed.

 Go passes rules an `interface{}` and inspects it by reflection. Here the
 input is an explicit datatype: a chain of reference-like wrappers
 (pointers, interfaces) that ends either in a nil reference or in a
 concrete value. The concrete value records its dynamic kind, its numeric
 content (meaningful for the numeric kinds only) and whether the
 repository's `IsEmpty` helper regards it as empty; which concrete values
 are empty is left open, since that helper is not part of this model.
 */
module Values {

  /** The dynamic kinds the range rule's type switch distinguishes. */
  datatype Kind =
    | Int | Int8 | Int16 | Int32 | Int64
    | Uint | Uint8 | Uint16 | Uint32 | Uint64
    | Float32 | Float64
    | Other   // strings, booleans, structs, slices, maps, named types, ...
  {
    /** A fixed-width signed integer kind other than plain `int`. */
    predicate IsSizedSigned() {
      this in {Int8, Int16, Int32, Int64}
    }

    /** A fixed-width unsigned integer kind other than plain `uint`. */
    predicate IsSizedUnsigned() {
      this in {Uint8, Uint16, Uint32, Uint64}
    }

    /** Any kind the type switch has a case for. */
    predicate IsNumeric() {
      this != Other
    }
  }

  /** A concrete (non-wrapper) value: the result of full indirection. */
  datatype Concrete = Concrete(kind: Kind, num: real, isEmpty: bool)

  /** What a rule receives: a possibly nil, possibly wrapped value. */
  datatype Input =
    | Nil                  // a nil pointer or nil interface
    | Ref(target: Input)   // a non-nil pointer or interface around another value
    | Value(v: Concrete)

  /** The pair `(value, isNil)` the indirection helper returns. */
  datatype Indirected = Absent | Present(v: Concrete)

  /** Wraps `x` in `n` non-nil references. */
  function Wrapped(n: nat, x: Input): (r: Input)
    decreases n
  {
    if n == 0 then x else Ref(Wrapped(n - 1, x))
  }

  /** The number of references in front of the end of the chain. */
  function Depth(x: Input): nat
  {
    match x
    case Ref(t) => 1 + Depth(t)
    case _ => 0
  }

  /**
   Follows the chain of references to its end: a nil reference anywhere
   makes the result absent, otherwise the concrete value at the end is
   returned. The contract says indirection peels exactly the references:
   the input is the result, re-wrapped as many times as it was deep.
   */
  function Indirect(x: Input): (r: Indirected)
    ensures r.Absent? ==> x == Wrapped(Depth(x), Nil)
    ensures r.Present? ==> x == Wrapped(Depth(x), Value(r.v))
  {
    match x
    case Nil => Absent
    case Ref(t) => Indirect(t)
    case Value(v) => Present(v)
  }

  /** References in front of a value do not change what indirection finds. */
  lemma {:induction false} WrappedIndirect(n: nat, x: Input)
    ensures Indirect(Wrapped(n, x)) == Indirect(x)
    decreases n
  {
    if n > 0 {
      WrappedIndirect(n - 1, x);
    }
  }

  /** A nil reference at any depth is absent after indirection. */
  lemma {:induction false} NilAtAnyDepthIsAbsent(n: nat)
    ensures Indirect(Wrapped(n, Nil)) == Absent
  {
    WrappedIndirect(n, Nil);
  }
}
